=== FILE: README.md ===
# Shmup: the per-frame simulation, in Dafny

This project models the game simulation of `main.py`, a small pygame
"shmup". The player's ship moves left and right along the bottom of a
360 x 480 field and fires bullets upwards. Eight rocks ("mobs") fall from
above the field. A rock that leaves the field is placed again above it. A
rock hit by a bullet is destroyed together with the bullet and replaced by a
new one. The game ends as soon as a rock touches the ship.

All geometry is integer pygame `Rect`s (`x, y, w, h`, with `right = x + w`,
`bottom = y + h`, centre `x + w / 2`). The model is functional. The ship,
mobs and bullets are immutable records with pure update functions, and one
frame of the game loop is a pure `Game.Step(state, input, randomness)`.

Modules:

- `Geometry` (`geometry.dfy`): field size, `Rect` and its setters, rectangle
  overlap, circle overlap, clamping.
- `Bullets` (`bullets.dfy`): `Bullet()` and `Bullet.update`, plus the bullet's
  exact lifetime.
- `Mobs` (`mobs.dfy`): `Mob()` and `Mob.update`, with the random draws passed
  in as a `Draw` record.
- `Players` (`players.dfy`): `Player()`, `Player.update` and `Player.shoot`.
- `Collide` (`collide.dfy`): the bullet/mob pass (`groupcollide`) and the
  ship/mob circle test (`collide_circle`).
- `Game` (`game.dfy`): the state, the initial eight mobs, event handling, one
  tick of the loop, and running many ticks.

Inputs that the program reads from outside are parameters:
- Keys held are a `Keys(left, right)` record.
- The frame's queued events are a sequence of `Quit | SpaceDown | OtherEvent`.
- Every `random.randrange` result comes from the caller. The `requires`
  clauses limit each value to its half-open range.

## Model

| member | source | states |
|---|---|---|
| `Players.Spawn` | main.py:29-38 | the new ship is centred horizontally (`centerx == WIDTH / 2`), its bottom is 10 pixels above the field's bottom, it is at rest, and it satisfies the ship invariant |
| `Players.Speed` | main.py:41-46 | the speed is one of -5, 0, 5: 0 with no arrow key, -5 with left only, and 5 whenever right is held (right is tested last and wins) |
| `Players.Update` | main.py:40-52 | speed follows the keys; `y` and the size are unchanged; for a ship no wider than the field, `0 <= left` and `right <= WIDTH`, and the new `x` equals the target `x + speed` clamped to `[0, WIDTH - w]`; the ship invariant is preserved |
| `Players.Shoot` | main.py:54-57 | the bullet's `centerx` is the ship's `centerx` and its `bottom` is the ship's `top`; a bullet fired by a valid ship is a valid bullet |
| `Bullets.Spawn` | main.py:84-92 | the new bullet has the requested bottom-centre and the image's size |
| `Bullets.Update` | main.py:94-97 | the bullet survives iff its bottom is still `>= 0` after moving; a surviving bullet is moved exactly 10 up and nothing else about it changes; validity is preserved |
| `Bullets.Lifetime` | main.py:90-97 | after `n` updates a bullet is still flying iff `n == 0` or `10 * n <= bottom`, and then it has moved exactly `10 * n` up |
| `Bullets.ExactLifetime` | main.py:90-97 | a bullet whose bottom starts at `y0 >= 0` is still flying after `y0 / 10` updates and is killed by update `y0 / 10 + 1` |
| `Mobs.Spawn` | main.py:61-71 | a new mob takes the drawn values: its left edge is the drawn `x`, its bottom the drawn `bottom`, its velocity the drawn `speedx`/`speedy`; so it has `0 <= x < WIDTH - w`, `-100 <= bottom < -40`, `speedx` in `[-3, 2]` and `speedy` in `[1, 7]` (so it always moves down), and the image's size |
| `Mobs.Update` | main.py:73-80 | after an update, `left >= 0`, `right <= WIDTH` and `top <= HEIGHT`; the result is the mob moved by its velocity iff that move stays on the field; otherwise it is a fresh placement from the draw; the mob invariant is preserved |
| `Collide.Sparing` | main.py:138 | the bullets left after one mob takes its hits are the input bullets that do not overlap it, each with its number of copies in the input, and none that overlaps it; at least one bullet is removed iff the mob is struck |
| `Collide.GroupCollide` | main.py:138 | survivors come from the input counting copies (multiset inclusion, for mobs and bullets alike); survivors plus hits equal the input mob count; each hit consumes at least one bullet; no surviving mob overlaps a surviving bullet; every removed mob and bullet overlapped a partner; there are no hits iff no mob overlaps any bullet, and then nothing changes |
| `Collide.GroupCollideKeepsUntouched` | main.py:138 | the bullet pass removes only what overlaps: a mob that no bullet overlaps keeps every one of its copies, and a bullet that no mob overlaps keeps every one of its copies, so equal untouched shots all survive |
| `Collide.SpawnedMobMissesPlayer` | main.py:144-146 | a freshly placed mob never touches a valid ship's circle, so replacements added by the bullet pass cannot end the game in the same frame |
| `Game.SpawnAll` | main.py:115-118 | one mob per draw, mob `i` placed with draw `i`, each satisfying the mob invariant and starting above the field |
| `Game.Init` | main.py:112-121 | the start state holds the ship at its spawn point, eight valid mobs, mob `i` placed with draw `i` and all starting above the field (bottom above y = -40), and no bullets, with `running` set |
| `Game.HandleEvents` | main.py:126-132 | every space-bar event appends exactly one bullet fired from the not-yet-updated ship, with no rate limit; existing bullets are kept in order; a quit event clears `running`; ship and mobs are untouched |
| `Game.ShotsAppended` | main.py:126-132 | after the event loop the bullets are the old bullets followed by exactly one shot from the ship per space-bar event |
| `Game.UpdateMobs` | main.py:135 | mob updates keep the mob count and the mob invariant; no mob is removed by its own update |
| `Game.UpdateBullets` | main.py:135 | a bullet is present after the updates iff it is the surviving update of some input bullet; none has its bottom above y = 0; there are no more bullets than before; validity is preserved |
| `Game.UpdateBulletsKeepsCopies` | main.py:135 | every bullet that survives its update appears afterwards exactly as many times as it did before, so equal shots fired in the same frame are all kept |
| `Game.Step` | main.py:122-146 | the mob count is unchanged by a tick; the ship is the updated ship whatever it touches; the game keeps running iff it was running, no quit event came and no mob touches the ship's circle after the bullet pass; at most one new bullet per space-bar event |
| `Game.MobsReplacedOneForOne` | main.py:138-142 | after a tick the mobs are survivors of the updated mobs (a sub-multiset of them, so a removed mob is never stood in for by a copy of another), followed by exactly one freshly placed mob per mob the bullet pass removed; there are no replacements iff no updated mob overlaps any updated bullet |
| `Game.BulletsAfterStep` | main.py:135-138 | every bullet after a tick is an updated bullet, old or newly fired, that survived its update; every such bullet that overlaps no updated mob is still there after the bullet pass, with all its copies, so equal shots fired in the same frame all survive it |
| `Game.NoOverlapAfterStep` | main.py:135-142 | from a valid state, after a tick no mob overlaps any bullet: survivors of the bullet pass do not, and replacement mobs lie entirely above every bullet |
| `Game.StepPreservesValid` | main.py:134-146 | a tick from a valid state gives a valid state: ship inside the field, exactly eight mobs that are inside the field with in-range velocities, every bullet on the field |
| `Game.Run` | main.py:121-146 | the loop keeps every state valid over any sequence of ticks, so the ship never leaves the field and there are always eight mobs; a stopped game does not change |

## Left out

- Pygame set-up, the window, image loading, `set_colorkey`, drawing, flipping
  the display and `pygame.quit` (main.py:20-25, 100-106, 148-155): these are
  rendering and I/O.
- Frame pacing by `clock.tick(FPS)` (main.py:124). One loop iteration is one
  `Game.Step`.
- Event polling (main.py:126-132) and `pygame.key.get_pressed`. Input is
  given as a `Keys` record and a sequence of events.
- The `random` module. Each placement takes a `Draw` of four values, which
  must lie in the `randrange` ranges. A tick receives one respawn draw per
  mob index, plus one replacement draw per possible hit. The program instead
  reads a single stream of random values, in sprite order.
- The float radius `int(self.rect.width / 2 * 0.85)` (main.py:67). The mob
  radius is the constant 18, which is that formula for a 43-pixel image.
- Image sizes. They come from image files that are not part of this model.
  The model assumes 43 x 43 for the rock and 13 x 37 for the bullet. The ship
  size (50 x 37) is in the source. Most properties above need only that the
  images are smaller than the field and the bullet narrower than the ship.
  `Game.NoOverlapAfterStep` also needs the bullet to be at most 41 pixels
  tall. A replacement rock has its bottom at y = -41 or above. A bullet
  still on the field has its top at y = -h or below. So the rock lies
  entirely above the bullet.
- The internals of pygame's `colliderect`, `collide_circle` and
  `groupcollide`, which are library code. Rectangle overlap is strict
  interior intersection. Circle overlap compares squared distances with
  `<=`, so circles that just touch collide. The bullet pass visits mobs in insertion order, and each mob takes
  every bullet that is still present and overlaps it.
- The `all_sprites` group is not a separate collection. It is the ship
  together with `mobs` and `bullets`, and killing a sprite removes it from
  every group at once.
- A multi-tick statement of when the game stops. `Game.Step` states, for a
  single tick, exactly when `running` is cleared.

Points where the model follows the code rather than a looser reading of the game:
- A rock is placed again when `left < 0`, `right > WIDTH` or `top > HEIGHT`.
  Sideways, that is as soon as it crosses an edge, not once it has left
  the field completely. At the bottom it is only once the whole rock is
  below the field.
- A bullet whose bottom starts at `y0 >= 0` survives `y0 / 10` updates
  (rounded down) and is killed by update `y0 / 10 + 1`. This equals
  `ceil(y0 / 10)` except when `y0` is a multiple of 10. For example, a bullet
  starting at `y0 = 430` is killed by update 44, not 43.
- This version has no shields, lives, explosions, sounds or invulnerability
  timer. Any contact between the ship and a rock ends the game, and the
  rock is not removed.

=== FILE: bullets.dfy ===
/**
 The player's projectile (`Bullet` in main.py): it is created with its
 bottom-centre at a given point, moves 10 pixels up on every update, and is
 killed by the update that takes its bottom edge above the top of the field.
 */
module Bullets {
  import opened Geometry

  /** Size of the bullet image; the image file is not part of this model. */
  const BULLET_W: nat := 13
  const BULLET_H: nat := 37

  /** Upward speed: `speedy = -10`. */
  const BULLET_SPEED: int := 10

  datatype Bullet = Bullet(rect: Rect)

  /** What one update leaves of a bullet: the moved bullet, or nothing
      when it called `kill()` on itself. */
  datatype Fate = Flying(bullet: Bullet) | Killed

  /** The shape every bullet of a running game has after a full tick:
      image size, inside the field horizontally, bottom edge on the field. */
  predicate Valid(b: Bullet) {
    && b.rect.w == BULLET_W && b.rect.h == BULLET_H
    && 0 <= b.rect.Left() && b.rect.Right() <= WIDTH
    && 0 <= b.rect.Bottom() <= HEIGHT
  }

  /** `Bullet(x, y)`: bottom-centre at `(centerx, bottom)`. */
  function Spawn(centerx: int, bottom: int): (b: Bullet)
    ensures b.rect.CenterX() == centerx && b.rect.Bottom() == bottom
    ensures b.rect.w == BULLET_W && b.rect.h == BULLET_H
  {
    Bullet(Rect(0, 0, BULLET_W, BULLET_H).WithCenterX(centerx).WithBottom(bottom))
  }

  /** `Bullet.update`: the bullet survives exactly when its bottom edge is
      still at or below y = 0 after moving up. */
  function Update(b: Bullet): (f: Fate)
    ensures f.Flying? <==> 0 <= b.rect.Bottom() - BULLET_SPEED
    ensures f.Flying? ==> f.bullet.rect == b.rect.Moved(0, -BULLET_SPEED)
    ensures Valid(b) && f.Flying? ==> Valid(f.bullet)
  {
    var moved := b.rect.Moved(0, -BULLET_SPEED);
    if moved.Bottom() < 0 then Killed else Flying(Bullet(moved))
  }

  /** Distinct bullets that both survive an update stay distinct: the
      update moves every bullet by the same amount. */
  lemma UpdateInjective(a: Bullet, b: Bullet)
    requires Update(a).Flying? && Update(b).Flying?
    requires Update(a).bullet == Update(b).bullet
    ensures a == b
  {
  }

  /** The bullet after `n` updates with nothing else touching it. */
  function UpdateN(b: Bullet, n: nat): Fate
    decreases n
  {
    if n == 0 then Flying(b)
    else
      match Update(b)
      case Killed => Killed
      case Flying(next) => UpdateN(next, n - 1)
  }

  /** A bullet is still flying after `n` updates exactly when its bottom
      edge has not yet been carried above y = 0, and then it has moved
      straight up by `10 * n`. */
  lemma {:induction false} Lifetime(b: Bullet, n: nat)
    ensures UpdateN(b, n).Flying? <==> (n == 0 || BULLET_SPEED * n <= b.rect.Bottom())
    ensures UpdateN(b, n).Flying? ==> UpdateN(b, n).bullet.rect == b.rect.Moved(0, -BULLET_SPEED * n)
    decreases n
  {
    if n > 0 {
      match Update(b)
      case Killed =>
      case Flying(next) =>
        Lifetime(next, n - 1);
    }
  }

  /** A bullet whose bottom edge starts at `y0 >= 0` survives `y0 / 10`
      updates and is killed by update `y0 / 10 + 1`. */
  lemma ExactLifetime(b: Bullet)
    requires 0 <= b.rect.Bottom()
    ensures UpdateN(b, b.rect.Bottom() / BULLET_SPEED).Flying?
    ensures UpdateN(b, b.rect.Bottom() / BULLET_SPEED + 1).Killed?
  {
    var k := b.rect.Bottom() / BULLET_SPEED;
    Lifetime(b, k);
    Lifetime(b, k + 1);
  }
}

=== FILE: collide.dfy ===
/**
 The two collision passes of a frame: bullets against mobs with rectangle
 overlap (`groupcollide(mobs, bullets, True, True)`), and the ship against
 mobs with circle overlap (`spritecollide(player, mobs, False,
 collide_circle)`).

 The bullet pass walks the mobs in the order they were added. Each mob
 takes every still-present bullet that overlaps it. A mob that took at
 least one bullet is removed together with those bullets, so a bullet is
 consumed at most once even if it overlaps several mobs.
 */
module Collide {
  import opened Geometry
  import Mobs
  import Bullets
  import Players

  predicate Overlapping(m: Mobs.Mob, b: Bullets.Bullet) {
    RectsOverlap(m.rect, b.rect)
  }

  /** Some bullet of `bs` overlaps `m`. */
  predicate Struck(m: Mobs.Mob, bs: seq<Bullets.Bullet>) {
    exists b :: b in bs && Overlapping(m, b)
  }

  /** Some mob of `ms` overlaps `b`. */
  predicate Striking(b: Bullets.Bullet, ms: seq<Mobs.Mob>) {
    exists m :: m in ms && Overlapping(m, b)
  }

  /** The bullets of `bs` that do not overlap `m`, in their order, each
      with its multiplicity in `bs`. */
  function Sparing(m: Mobs.Mob, bs: seq<Bullets.Bullet>): (r: seq<Bullets.Bullet>)
    ensures forall b :: multiset(r)[b] == if Overlapping(m, b) then 0 else multiset(bs)[b]
    ensures forall b :: b in r <==> b in bs && !Overlapping(m, b)
    ensures Struck(m, bs) ==> |r| < |bs|
    ensures !Struck(m, bs) ==> r == bs
  {
    if |bs| == 0 then []
    else
      assert bs == [bs[0]] + bs[1..];
      if Overlapping(m, bs[0]) then Sparing(m, bs[1..])
      else [bs[0]] + Sparing(m, bs[1..])
  }

  /** Result of the bullet pass: the surviving mobs and bullets, in order,
      and the number of mobs removed. */
  datatype Outcome = Outcome(mobs: seq<Mobs.Mob>, bullets: seq<Bullets.Bullet>, hits: nat)

  /** `groupcollide(mobs, bullets, True, True)`. The survivors are taken
      from the input counting copies, there is one hit per removed mob and
      at least one bullet consumed per hit, no surviving mob overlaps a
      surviving bullet, every removed mob and bullet overlapped a partner
      of the input, and there is a hit exactly when some mob overlaps some
      bullet. */
  function GroupCollide(ms: seq<Mobs.Mob>, bs: seq<Bullets.Bullet>): (o: Outcome)
    ensures |o.mobs| + o.hits == |ms|
    ensures |o.bullets| + o.hits <= |bs|
    ensures forall m :: m in o.mobs ==> m in ms
    ensures forall b :: b in o.bullets ==> b in bs
    ensures multiset(o.mobs) <= multiset(ms)
    ensures multiset(o.bullets) <= multiset(bs)
    ensures forall m, b :: m in o.mobs && b in o.bullets ==> !Overlapping(m, b)
    ensures forall m :: m in ms && m !in o.mobs ==> Struck(m, bs)
    ensures forall b :: b in bs && b !in o.bullets ==> Striking(b, ms)
    ensures o.hits == 0 <==> forall m, b :: m in ms && b in bs ==> !Overlapping(m, b)
    ensures o.hits == 0 ==> o.mobs == ms && o.bullets == bs
    decreases |ms|
  {
    if |ms| == 0 then Outcome([], bs, 0)
    else
      var m := ms[0];
      var tail := ms[1..];
      assert forall x :: x in ms <==> x == m || x in tail by {
        assert ms == [m] + tail;
      }
      if Struck(m, bs) then
        var rest := GroupCollide(tail, Sparing(m, bs));
        Outcome(rest.mobs, rest.bullets, rest.hits + 1)
      else
        var rest := GroupCollide(tail, bs);
        Outcome([m] + rest.mobs, rest.bullets, rest.hits)
  }

  /** The bullet pass removes only what overlaps: a mob that no bullet
      overlaps keeps every one of its copies, and so does a bullet that no
      mob overlaps. */
  lemma {:induction false} GroupCollideKeepsUntouched(ms: seq<Mobs.Mob>, bs: seq<Bullets.Bullet>)
    ensures forall m :: !Struck(m, bs) ==> multiset(GroupCollide(ms, bs).mobs)[m] == multiset(ms)[m]
    ensures forall b :: !Striking(b, ms) ==> multiset(GroupCollide(ms, bs).bullets)[b] == multiset(bs)[b]
    decreases |ms|
  {
    if |ms| > 0 {
      var m := ms[0];
      var tail := ms[1..];
      assert ms == [m] + tail;
      var o := GroupCollide(ms, bs);
      if Struck(m, bs) {
        var spared := Sparing(m, bs);
        GroupCollideKeepsUntouched(tail, spared);
        forall x | !Struck(x, bs)
          ensures multiset(o.mobs)[x] == multiset(ms)[x]
        {
          assert !Struck(x, spared);
          assert x != m;
        }
        forall b | !Striking(b, ms)
          ensures multiset(o.bullets)[b] == multiset(bs)[b]
        {
          assert !Overlapping(m, b);
          assert !Striking(b, tail);
        }
      } else {
        GroupCollideKeepsUntouched(tail, bs);
        forall x | !Struck(x, bs)
          ensures multiset(o.mobs)[x] == multiset(ms)[x]
        {
          assert o.mobs == [m] + GroupCollide(tail, bs).mobs;
        }
        forall b | !Striking(b, ms)
          ensures multiset(o.bullets)[b] == multiset(bs)[b]
        {
          assert !Striking(b, tail);
        }
      }
    }
  }

  /** `collide_circle` between the ship and one mob, each circle centred on
      its rectangle. */
  predicate Contact(p: Players.Player, m: Mobs.Mob) {
    CirclesOverlap(p.rect.CenterX(), p.rect.CenterY(), Players.PLAYER_RADIUS,
                   m.rect.CenterX(), m.rect.CenterY(), Mobs.MOB_RADIUS)
  }

  /** `spritecollide(player, mobs, False, collide_circle)` is non-empty. */
  predicate PlayerHit(p: Players.Player, ms: seq<Mobs.Mob>) {
    exists m :: m in ms && Contact(p, m)
  }

  /** A freshly placed mob is far above the ship, so the replacements the
      bullet pass adds can never touch it in the same frame. */
  lemma SpawnedMobMissesPlayer(p: Players.Player, d: Mobs.Draw)
    requires Players.Valid(p)
    requires Mobs.ValidDraw(d)
    ensures !Contact(p, Mobs.Spawn(d))
  {
  }
}

=== FILE: game.dfy ===
/**
 The game loop of main.py as a pure step function over one game state.

 One tick handles the frame's input events (fire shoots, quit clears
 `running`), updates the ship, every mob and every bullet, runs the bullet
 pass and replaces each removed mob with a fresh one, and finally ends the
 game if the ship's circle touches any mob. The random values a tick needs
 are supplied by the caller.
 */
module Game {
  import Players
  import Mobs
  import Bullets
  import Collide

  /** Number of mobs placed at start, and kept by every tick. */
  const MOB_COUNT: nat := 8

  /** The input events of one frame that the loop reacts to: the window
      being closed, the space bar going down, and anything else. */
  datatype Event = Quit | SpaceDown | OtherEvent

  /** One frame's input: the arrow keys held during the update, and the
      events queued since the previous frame, in order. */
  datatype Input = Input(keys: Players.Keys, events: seq<Event>)

  /** The random draws one tick may consume: `respawns[i]` is used if mob
      `i` leaves the field during its update, `replacements[j]` places the
      mob that replaces the `j`-th mob removed by the bullet pass. */
  datatype Randomness = Randomness(respawns: seq<Mobs.Draw>, replacements: seq<Mobs.Draw>)

  /** The sprites of the game (`all_sprites` is the ship together with
      `mobs` and `bullets`) and the loop flag. */
  datatype State = State(player: Players.Player, mobs: seq<Mobs.Mob>, bullets: seq<Bullets.Bullet>, running: bool)

  predicate ValidDraws(ds: seq<Mobs.Draw>) {
    forall d :: d in ds ==> Mobs.ValidDraw(d)
  }

  /** Enough in-range draws for a tick over `n` mobs. */
  predicate Supplies(rnd: Randomness, n: nat) {
    && |rnd.respawns| == n && ValidDraws(rnd.respawns)
    && |rnd.replacements| == n && ValidDraws(rnd.replacements)
  }

  /** What holds between ticks of a game. */
  predicate Valid(s: State) {
    && Players.Valid(s.player)
    && |s.mobs| == MOB_COUNT
    && (forall m :: m in s.mobs ==> Mobs.Valid(m))
    && (forall b :: b in s.bullets ==> Bullets.Valid(b))
  }

  /** Mobs placed with the draws `ds`, one each, in order. */
  function SpawnAll(ds: seq<Mobs.Draw>): (ms: seq<Mobs.Mob>)
    requires ValidDraws(ds)
    ensures |ms| == |ds|
    ensures forall i :: 0 <= i < |ds| ==> ms[i] == Mobs.Spawn(ds[i])
    ensures forall m :: m in ms ==> Mobs.Valid(m) && m.rect.Bottom() < Mobs.SPAWN_BOTTOM_HI
  {
    if |ds| == 0 then [] else [Mobs.Spawn(ds[0])] + SpawnAll(ds[1..])
  }

  /** The state before the first frame: the ship, eight mobs, no bullets,
      and the loop running. */
  function Init(ds: seq<Mobs.Draw>): (s: State)
    requires |ds| == MOB_COUNT && ValidDraws(ds)
    ensures Valid(s)
    ensures s.running && s.bullets == []
    ensures s.player == Players.Spawn()
    ensures forall i :: 0 <= i < MOB_COUNT ==> s.mobs[i] == Mobs.Spawn(ds[i])
    ensures forall m :: m in s.mobs ==> m.rect.Bottom() < Mobs.SPAWN_BOTTOM_HI
  {
    State(Players.Spawn(), SpawnAll(ds), [], true)
  }

  /** The event loop of one frame. Every space-bar event adds exactly one
      bullet fired from the ship as it is before its update; a quit event
      clears `running`; nothing else changes. */
  function HandleEvents(s: State, events: seq<Event>): (r: State)
    ensures r.player == s.player && r.mobs == s.mobs
    ensures r.running == (s.running && Quit !in events)
    ensures |r.bullets| == |s.bullets| + multiset(events)[SpaceDown]
    ensures r.bullets[..|s.bullets|] == s.bullets
    ensures forall i :: |s.bullets| <= i < |r.bullets| ==> r.bullets[i] == Players.Shoot(s.player)
    decreases |events|
  {
    if |events| == 0 then s
    else
      var next := match events[0]
        case Quit => s.(running := false)
        case SpaceDown => s.(bullets := s.bullets + [Players.Shoot(s.player)])
        case OtherEvent => s;
      assert events == [events[0]] + events[1..];
      HandleEvents(next, events[1..])
  }

  /** `Mob.update` on every mob: mobs are moved or re-placed, never removed. */
  function UpdateMobs(ms: seq<Mobs.Mob>, ds: seq<Mobs.Draw>): (r: seq<Mobs.Mob>)
    requires |ds| == |ms| && ValidDraws(ds)
    ensures |r| == |ms|
    ensures forall i :: 0 <= i < |ms| ==> r[i] == Mobs.Update(ms[i], ds[i])
    ensures (forall m :: m in ms ==> Mobs.Valid(m)) ==> forall m :: m in r ==> Mobs.Valid(m)
  {
    seq(|ms|, i requires 0 <= i < |ms| => Mobs.Update(ms[i], ds[i]))
  }

  /** `Bullet.update` on every bullet: the bullets still flying, in order. */
  function UpdateBullets(bs: seq<Bullets.Bullet>): (r: seq<Bullets.Bullet>)
    ensures |r| <= |bs|
    ensures forall b :: b in r <==> exists b0 :: b0 in bs && Bullets.Update(b0) == Bullets.Flying(b)
    ensures forall b :: b in r ==> 0 <= b.rect.Bottom()
    ensures (forall b :: b in bs ==> Bullets.Valid(b)) ==> forall b :: b in r ==> Bullets.Valid(b)
  {
    if |bs| == 0 then []
    else
      assert forall x :: x in bs <==> x == bs[0] || x in bs[1..] by {
        assert bs == [bs[0]] + bs[1..];
      }
      match Bullets.Update(bs[0])
      case Killed => UpdateBullets(bs[1..])
      case Flying(b) => [b] + UpdateBullets(bs[1..])
  }

  /** Every surviving bullet appears after the update as often as its
      original did before, so same-frame duplicate shots are all kept. */
  lemma {:induction false} UpdateBulletsKeepsCopies(bs: seq<Bullets.Bullet>, b0: Bullets.Bullet)
    requires Bullets.Update(b0).Flying?
    ensures multiset(UpdateBullets(bs))[Bullets.Update(b0).bullet] == multiset(bs)[b0]
  {
    if |bs| > 0 {
      var first := bs[0];
      assert bs == [first] + bs[1..];
      UpdateBulletsKeepsCopies(bs[1..], b0);
      match Bullets.Update(first)
      case Killed =>
        assert first != b0;
      case Flying(b) =>
        assert UpdateBullets(bs) == [b] + UpdateBullets(bs[1..]);
        if b == Bullets.Update(b0).bullet {
          Bullets.UpdateInjective(b0, first);
        } else {
          assert first != b0;
        }
    }
  }

  /** One iteration of the game loop. The mob count is unchanged; the ship
      is the updated ship whatever it touches; the game keeps running
      exactly when it was running, no quit event came and the ship's
      circle touches no mob after the bullet pass. */
  function Step(s: State, input: Input, rnd: Randomness): (r: State)
    requires Supplies(rnd, |s.mobs|)
    ensures |r.mobs| == |s.mobs|
    ensures r.player == Players.Update(s.player, input.keys)
    ensures r.running <==> s.running && Quit !in input.events && !Collide.PlayerHit(r.player, r.mobs)
    ensures |r.bullets| <= |s.bullets| + multiset(input.events)[SpaceDown]
  {
    var handled := HandleEvents(s, input.events);
    var player := Players.Update(handled.player, input.keys);
    var mobs := UpdateMobs(handled.mobs, rnd.respawns);
    var bullets := UpdateBullets(handled.bullets);
    var pass := Collide.GroupCollide(mobs, bullets);
    var replaced := pass.mobs + SpawnAll(rnd.replacements[..pass.hits]);
    State(player, replaced, pass.bullets, handled.running && !Collide.PlayerHit(player, replaced))
  }

  /** A tick keeps the state valid: ship inside the field, eight mobs all
      inside the field with velocities from the placement ranges, every
      bullet on the field. */
  lemma StepPreservesValid(s: State, input: Input, rnd: Randomness)
    requires Valid(s)
    requires Supplies(rnd, MOB_COUNT)
    ensures Valid(Step(s, input, rnd))
  {
  }

  /** The mobs after a tick are the updated mobs the bullet pass left, in
      order, followed by exactly one freshly placed mob per mob it removed;
      the circle test against the ship removes nothing. */
  lemma MobsReplacedOneForOne(s: State, input: Input, rnd: Randomness)
    requires Supplies(rnd, |s.mobs|)
    ensures var r := Step(s, input, rnd);
            var updated := UpdateMobs(s.mobs, rnd.respawns);
            exists k ::
              && 0 <= k <= |s.mobs|
              && r.mobs[|s.mobs| - k..] == SpawnAll(rnd.replacements[..k])
              && (forall m :: m in r.mobs[..|s.mobs| - k] ==> m in updated)
              && multiset(r.mobs[..|s.mobs| - k]) <= multiset(updated)
              && (k == 0 <==> forall m, b :: m in updated && b in UpdateBullets(s.bullets + NewShots(s, input)) ==> !Collide.Overlapping(m, b))
  {
    var handled := HandleEvents(s, input.events);
    ShotsAppended(s, input);
    var updated := UpdateMobs(s.mobs, rnd.respawns);
    var pass := Collide.GroupCollide(updated, UpdateBullets(handled.bullets));
    var r := Step(s, input, rnd);
    var k := pass.hits;
    assert r.mobs == pass.mobs + SpawnAll(rnd.replacements[..k]);
    assert r.mobs[|s.mobs| - k..] == SpawnAll(rnd.replacements[..k]);
    assert r.mobs[..|s.mobs| - k] == pass.mobs;
  }

  /** The bullets the space-bar events of `input` fire, one per event. */
  function NewShots(s: State, input: Input): (shots: seq<Bullets.Bullet>)
    ensures |shots| == multiset(input.events)[SpaceDown]
    ensures forall b :: b in shots ==> b == Players.Shoot(s.player)
  {
    seq(multiset(input.events)[SpaceDown], _ => Players.Shoot(s.player))
  }

  /** The event loop leaves the old bullets in place and appends exactly
      the shots of the space-bar events, one bullet per event. */
  lemma ShotsAppended(s: State, input: Input)
    ensures HandleEvents(s, input.events).bullets == s.bullets + NewShots(s, input)
  {
  }

  /** The bullets after a tick: each is an updated bullet (old or newly
      fired) that survived its update, and every updated bullet that
      overlaps no updated mob is still there, with all its copies. */
  lemma BulletsAfterStep(s: State, input: Input, rnd: Randomness)
    requires Supplies(rnd, |s.mobs|)
    ensures var r := Step(s, input, rnd);
            var updated := UpdateBullets(s.bullets + NewShots(s, input));
            && (forall b :: b in r.bullets ==> b in updated)
            && (forall b :: b in updated && !Collide.Striking(b, UpdateMobs(s.mobs, rnd.respawns)) ==> b in r.bullets)
            && (forall b :: !Collide.Striking(b, UpdateMobs(s.mobs, rnd.respawns)) ==> multiset(r.bullets)[b] == multiset(updated)[b])
  {
    ShotsAppended(s, input);
    Collide.GroupCollideKeepsUntouched(UpdateMobs(s.mobs, rnd.respawns), UpdateBullets(s.bullets + NewShots(s, input)));
  }

  /** After a tick no mob overlaps a bullet: the bullet pass leaves no
      overlapping pair, and a freshly placed mob is entirely above every
      bullet still on the field. */
  lemma NoOverlapAfterStep(s: State, input: Input, rnd: Randomness)
    requires Valid(s)
    requires Supplies(rnd, MOB_COUNT)
    ensures var r := Step(s, input, rnd);
            forall m, b :: m in r.mobs && b in r.bullets ==> !Collide.Overlapping(m, b)
  {
  }

  /** One tick of the loop's input and randomness. */
  datatype Tick = Tick(input: Input, rnd: Randomness)

  /** `while running:` over a sequence of ticks, stopping at the first tick
      that ends the game. Validity holds after any number of ticks, so the
      ship never leaves the field and there are always eight mobs. */
  function Run(s: State, ticks: seq<Tick>): (r: State)
    requires Valid(s)
    requires forall t :: t in ticks ==> Supplies(t.rnd, MOB_COUNT)
    ensures Valid(r)
    ensures !s.running ==> r == s
    decreases |ticks|
  {
    if |ticks| == 0 || !s.running then s
    else
      StepPreservesValid(s, ticks[0].input, ticks[0].rnd);
      assert forall t :: t in ticks[1..] ==> t in ticks;
      Run(Step(s, ticks[0].input, ticks[0].rnd), ticks[1..])
  }
}

=== FILE: geometry.dfy ===
/**
 Integer rectangles and circles on the playing field.

 Rectangles follow the pygame `Rect` convention: `(x, y)` is the top-left
 corner, y grows downwards, `right = x + w`, `bottom = y + h`, and the centre
 is `x + w / 2` (integer division on a non-negative size).
 */
module Geometry {

  /** The playing field is WIDTH x HEIGHT pixels. */
  const WIDTH: int := 360
  const HEIGHT: int := 480

  datatype Rect = Rect(x: int, y: int, w: nat, h: nat) {

    function Left(): int { x }
    function Right(): int { x + w }
    function Top(): int { y }
    function Bottom(): int { y + h }
    function CenterX(): int { x + w / 2 }
    function CenterY(): int { y + h / 2 }

    /** The rectangle translated by `(dx, dy)`: `rect.x += dx; rect.y += dy`. */
    function Moved(dx: int, dy: int): (r: Rect)
      ensures r.w == w && r.h == h
      ensures r.Left() - Left() == dx && r.Top() - Top() == dy
    {
      Rect(x + dx, y + dy, w, h)
    }

    /** Assigning `rect.left`: only `x` changes. */
    function WithLeft(v: int): (r: Rect)
      ensures r.Left() == v
      ensures r.y == y && r.w == w && r.h == h
    {
      Rect(v, y, w, h)
    }

    /** Assigning `rect.right` moves the rectangle; its size is kept. */
    function WithRight(v: int): (r: Rect)
      ensures r.Right() == v
      ensures r.y == y && r.w == w && r.h == h
    {
      Rect(v - w, y, w, h)
    }

    /** Assigning `rect.centerx` moves the rectangle horizontally. */
    function WithCenterX(v: int): (r: Rect)
      ensures r.CenterX() == v
      ensures r.y == y && r.w == w && r.h == h
    {
      Rect(v - w / 2, y, w, h)
    }

    /** Assigning `rect.bottom` moves the rectangle vertically. */
    function WithBottom(v: int): (r: Rect)
      ensures r.Bottom() == v
      ensures r.x == x && r.w == w && r.h == h
    {
      Rect(x, v - h, w, h)
    }
  }

  /** pygame's `colliderect` for non-empty rectangles: the interiors
      intersect, so rectangles that only share an edge do not collide. */
  predicate RectsOverlap(a: Rect, b: Rect) {
    && a.Left() < b.Right()
    && b.Left() < a.Right()
    && a.Top() < b.Bottom()
    && b.Top() < a.Bottom()
  }

  /** pygame's `collide_circle`: the squared distance of the centres is at
      most the squared sum of the radii, so touching circles collide. */
  predicate CirclesOverlap(x1: int, y1: int, r1: int, x2: int, y2: int, r2: int) {
    (x1 - x2) * (x1 - x2) + (y1 - y2) * (y1 - y2) <= (r1 + r2) * (r1 + r2)
  }

  /** The point of `[lo, hi]` nearest to `v`. */
  function Clamp(v: int, lo: int, hi: int): (r: int)
    requires lo <= hi
    ensures lo <= r <= hi
    ensures lo <= v <= hi ==> r == v
    ensures v < lo ==> r == lo
    ensures hi < v ==> r == hi
  {
    if v < lo then lo else if hi < v then hi else v
  }
}

=== FILE: mobs.dfy ===
/**
 The falling rock (`Mob` in main.py). A mob is placed at a random position
 above the field with a random velocity, drifts by that velocity on every
 update, and is placed afresh as soon as it sticks out past the left or
 right edge, or has dropped entirely below the bottom edge. It is never
 removed by its own update.
 */
module Mobs {
  import opened Geometry

  /** Size of the rock image; the image file is not part of this model. */
  const MOB_W: nat := 43
  const MOB_H: nat := 43

  /** `int(width / 2 * 0.85)` for the image width above, taken as a given
      constant rather than computed in floating point. */
  const MOB_RADIUS: int := 18

  /** The half-open ranges `random.randrange(lo, hi)` draws from. */
  const SPAWN_BOTTOM_LO: int := -100
  const SPAWN_BOTTOM_HI: int := -40
  const SPEEDX_LO: int := -3
  const SPEEDX_HI: int := 3
  const SPEEDY_LO: int := 1
  const SPEEDY_HI: int := 8

  datatype Mob = Mob(rect: Rect, speedx: int, speedy: int)

  /** The four values drawn, in source order, when a mob is placed:
      left edge, bottom edge, horizontal and vertical speed. */
  datatype Draw = Draw(x: int, bottom: int, speedx: int, speedy: int)

  /** `random.randrange(lo, hi)` returns a value of `[lo, hi)`. */
  predicate InRandRange(v: int, lo: int, hi: int) {
    lo <= v < hi
  }

  /** The values `random.randrange` can return for a placement. */
  predicate ValidDraw(d: Draw) {
    && InRandRange(d.x, 0, WIDTH - MOB_W)
    && InRandRange(d.bottom, SPAWN_BOTTOM_LO, SPAWN_BOTTOM_HI)
    && InRandRange(d.speedx, SPEEDX_LO, SPEEDX_HI)
    && InRandRange(d.speedy, SPEEDY_LO, SPEEDY_HI)
  }

  /** What holds of every mob of a running game: image size, inside the
      field horizontally, no lower than the bottom edge and no higher than
      the highest placement, and a velocity from the placement ranges. */
  predicate Valid(m: Mob) {
    && m.rect.w == MOB_W && m.rect.h == MOB_H
    && 0 <= m.rect.Left() && m.rect.Right() <= WIDTH
    && SPAWN_BOTTOM_LO - MOB_H <= m.rect.Top() <= HEIGHT
    && SPEEDX_LO <= m.speedx < SPEEDX_HI
    && SPEEDY_LO <= m.speedy < SPEEDY_HI
  }

  /** `Mob()`, and equally the re-placement inside `Mob.update`: the mob
      takes the drawn left edge, bottom edge and velocity. */
  function Spawn(d: Draw): (m: Mob)
    requires ValidDraw(d)
    ensures m.rect.Left() == d.x && m.rect.Bottom() == d.bottom
    ensures m.speedx == d.speedx && m.speedy == d.speedy
    ensures 0 <= m.rect.Left() < WIDTH - MOB_W
    ensures -100 <= m.rect.Bottom() < -40
    ensures -3 <= m.speedx <= 2
    ensures 1 <= m.speedy <= 7
    ensures m.rect.w == MOB_W && m.rect.h == MOB_H
    ensures Valid(m)
  {
    Mob(Rect(d.x, 0, MOB_W, MOB_H).WithBottom(d.bottom), d.speedx, d.speedy)
  }

  /** The mob translated by its own velocity. */
  function Drifted(m: Mob): (r: Mob)
    ensures r.speedx == m.speedx && r.speedy == m.speedy
    ensures r.rect == m.rect.Moved(m.speedx, m.speedy)
  {
    m.(rect := m.rect.Moved(m.speedx, m.speedy))
  }

  /** The test in `Mob.update` that sends a mob back to the top. */
  predicate OffField(r: Rect) {
    r.Left() < 0 || r.Right() > WIDTH || r.Top() > HEIGHT
  }

  /** `Mob.update`: drift, and re-place with the draw `d` when the drift
      left the field. Whatever happens, the mob ends up inside the field
      horizontally and not below it. */
  function Update(m: Mob, d: Draw): (r: Mob)
    requires ValidDraw(d)
    ensures 0 <= r.rect.Left() && r.rect.Right() <= WIDTH && r.rect.Top() <= HEIGHT
    ensures r == Drifted(m) <==> !OffField(Drifted(m).rect)
    ensures OffField(Drifted(m).rect) ==> r == Spawn(d)
    ensures Valid(m) ==> Valid(r)
  {
    var moved := Drifted(m);
    if OffField(moved.rect) then Spawn(d) else moved
  }
}

=== FILE: players.dfy ===
/**
 The player's ship (`Player` in main.py): moved horizontally by the arrow
 keys, kept inside the field, and firing bullets from its top-centre.
 */
module Players {
  import opened Geometry
  import Bullets

  /** Size the ship image is scaled to. */
  const PLAYER_W: nat := 50
  const PLAYER_H: nat := 37

  /** Radius used by the circle collision test. */
  const PLAYER_RADIUS: int := 19

  /** Horizontal speed while an arrow key is held. */
  const PLAYER_SPEED: int := 5

  /** The ship's bottom edge sits 10 pixels above the bottom of the field
      and nothing ever moves it vertically, so its top edge is fixed. */
  const PLAYER_TOP: int := HEIGHT - 10 - PLAYER_H

  datatype Player = Player(rect: Rect, speedx: int)

  /** The two arrow keys as `pygame.key.get_pressed` reports them. */
  datatype Keys = Keys(left: bool, right: bool)

  /** What holds of the ship throughout a game. */
  predicate Valid(p: Player) {
    && p.rect.w == PLAYER_W && p.rect.h == PLAYER_H
    && p.rect.Top() == PLAYER_TOP
    && 0 <= p.rect.Left() && p.rect.Right() <= WIDTH
  }

  /** `Player()`: centred horizontally, 10 pixels above the bottom, at rest. */
  function Spawn(): (p: Player)
    ensures p.rect.CenterX() == WIDTH / 2
    ensures p.rect.Bottom() == HEIGHT - 10
    ensures p.speedx == 0
    ensures Valid(p)
  {
    Player(Rect(0, 0, PLAYER_W, PLAYER_H).WithCenterX(WIDTH / 2).WithBottom(HEIGHT - 10), 0)
  }

  /** The speed `Player.update` derives from the keys: reset to 0, then
      left, then right, so right wins when both are held. */
  function Speed(keys: Keys): (v: int)
    ensures v == -PLAYER_SPEED || v == 0 || v == PLAYER_SPEED
    ensures keys.right ==> v == PLAYER_SPEED
    ensures keys.left && !keys.right ==> v == -PLAYER_SPEED
    ensures !keys.left && !keys.right ==> v == 0
  {
    var reset := 0;
    var afterLeft := if keys.left then -PLAYER_SPEED else reset;
    if keys.right then PLAYER_SPEED else afterLeft
  }

  /** `Player.update`: move by the key speed, then pull the left edge back
      to 0 and the right edge back to WIDTH. Only `x` and the speed change;
      for a ship no wider than the field the new `x` is the target position
      clamped to `[0, WIDTH - w]`. */
  function Update(p: Player, keys: Keys): (r: Player)
    ensures r.speedx == Speed(keys)
    ensures r.rect.y == p.rect.y && r.rect.w == p.rect.w && r.rect.h == p.rect.h
    ensures p.rect.w <= WIDTH ==> 0 <= r.rect.Left() && r.rect.Right() <= WIDTH
    ensures p.rect.w <= WIDTH ==> r.rect.x == Clamp(p.rect.x + Speed(keys), 0, WIDTH - p.rect.w)
    ensures Valid(p) ==> Valid(r)
  {
    var speed := Speed(keys);
    var moved := p.rect.Moved(speed, 0);
    var leftFixed := if moved.Left() < 0 then moved.WithLeft(0) else moved;
    var rightFixed := if leftFixed.Right() > WIDTH then leftFixed.WithRight(WIDTH) else leftFixed;
    Player(rightFixed, speed)
  }

  /** `Player.shoot`: a new bullet whose centre is the ship's centre and
      whose bottom edge is the ship's top edge. */
  function Shoot(p: Player): (b: Bullets.Bullet)
    ensures b.rect.CenterX() == p.rect.CenterX()
    ensures b.rect.Bottom() == p.rect.Top()
    ensures Valid(p) ==> Bullets.Valid(b)
  {
    Bullets.Spawn(p.rect.CenterX(), p.rect.Top())
  }
}
